=== FILE: README.md ===
# Crossdock `/api/ask` handler in Dafny

This project models the edge function `api/ask.js`. The function answers logistics questions by calling a chat-completion service. The model covers:

- the per-instance sliding-window **rate limiter**: `rateBucket` and `rateLimit(ip)`, at most 30 calls per client key per 60 000 ms;
- the **decision ladder**, which turns a request into a response or an upstream call. Its order is:
  1. CORS preflight;
  2. rate limit;
  3. API key;
  4. method and body;
  5. question present;
  6. question length.
- **history trimming** and assembly of the `messages` array;
- the mapping of the service's **reply** onto the response: stream error, upstream error, empty answer, or answer;
- the **stream frame decoder**, which reads the upstream body, splits each read into lines, and forwards the delta content of each `data: ` frame until `data: [DONE]`.

Modules:

- `Js`: JSON values, truthiness, `||`, and property access with and without `?.`.
- `Seqs`: `filter`, `split` on one character, `join`, and flattening.
- `RateLimit`: the limiter. `RateLimiter` is a class whose `buckets` map is updated in place.
- `Prompt`: history trimming and the `messages` array.
- `Handler`: the decision ladder, the `Handle` method, and the reply mapping.
- `Stream`: the frame decoder, both as written and buffered.

Some inputs are passed in as parameters rather than modelled:

- the clock (`Date.now()`);
- the environment variable `OPENAI_API_KEY`;
- the outcome of `req.json()`;
- the upstream reply;
- `JSON.parse`, as a function from text to `Parsed`;
- the reads of the response body, as already-decoded strings.

The stream relay is specified by `Stream.Decode`, a function over the sequence of lines. `Decode` ends at the first `[DONE]` and yields the truthy delta contents before it, in order.

The upstream body is an event stream, in which a line ends at a newline and not at the end of a read. The transport may cut the body into reads anywhere, even in the middle of a line. The code at `api/ask.js:166-167` nevertheless splits every read on its own. The model follows the code in `Stream.RelayStream`. A decoder that carries a partial line over to the next read is modelled separately as `Stream.BufferedRelayStream`; see "Findings".

## Model

| member | source | states |
|---|---|---|
| `Seqs.Filter` | api/ask.js:19 | `filter` keeps every element that passes and only such elements, and never grows the array. |
| `Seqs.FilterLength` | api/ask.js:19-22 | The length after `filter` is the number of elements that pass the predicate. |
| `Seqs.FilterIsSubsequence` | api/ask.js:100-102 | `filter` keeps the relative order of what it keeps. |
| `Seqs.JoinSplit` | api/ask.js:167 | `split` on one character loses nothing: joining the pieces with that character gives the text back. |
| `Seqs.SplitPiecesAreSeparatorFree` | api/ask.js:167 | No piece produced by `split("\n")` contains a newline. |
| `Seqs.SplitWithoutSeparator` | api/ask.js:167 | A text without the separator splits into itself alone. |
| `Seqs.Split` | api/ask.js:167 | `split` on one character returns at least one piece, even for the empty text. Its pieces are described by `Seqs.JoinSplit`, `Seqs.SplitPiecesAreSeparatorFree` and `Seqs.SplitWithoutSeparator`. |
| `Seqs.SplitAppend` | api/ask.js:166-167 | Splitting `a + b` gives the pieces of `a` and of `b`, with the last piece of `a` fused to the first piece of `b`. |
| `RateLimit.Lookup` | api/ask.js:18 | An unknown client has no timestamps; a known client's are its stored ones. |
| `RateLimit.InWindow` | api/ask.js:19 | A timestamp counts at `now` exactly when it is later than `now` minus 60 000 ms. |
| `RateLimit.Recent` | api/ask.js:18-19 | The kept timestamps are exactly the client's timestamps that are less than one window old at `now`. |
| `RateLimit.Record` | api/ask.js:16-21 | After a call, the client's entry holds the in-window earlier timestamps followed by `now`, and every in-window timestamp is kept. This holds whether the call is allowed or not. The key set gains the client and no other entry changes. The new entry is `Recent` of the old one followed by `now`. Its length is one more than the number of old timestamps in the window, and the kept part is a subsequence of the old entry, in the same order. |
| `RateLimit.Admits` | api/ask.js:22 | A call is allowed exactly when fewer than 30 earlier calls of the same client lie within the window. |
| `RateLimit.BurstIsRecorded` | api/ask.js:16-22 | Consider a fresh client making calls that all fit in one window. After k calls, the client's entry is exactly those k timestamps, denied calls included. |
| `RateLimit.BurstVerdict` | api/ask.js:16-22 | In such a burst, call number k (counting from 0) is allowed exactly when k < 30. |
| `RateLimit.ThirtyFirstCallDenied` | api/ask.js:13-22 | A fresh client makes 31 time-ordered calls spanning less than 60 000 ms. The first 30 are allowed and the 31st is denied. |
| `RateLimit.AllowedAfterQuietWindow` | api/ask.js:19-22 | Once a whole window has passed since every recorded call, the next call is allowed and leaves only itself recorded. |
| `RateLimit.RateLimiter.constructor` | api/ask.js:12 | The table starts empty. |
| `RateLimit.RateLimiter.Check` | api/ask.js:16-23 | `rateLimit(ip)` replaces the table with `Record` of the old table and returns the `Admits` verdict taken on the old table. |
| `Js.Truthy` | api/ask.js:67 | `Boolean(v)` is false exactly for undefined, null, false, 0 and the empty string, and true for everything else, arrays and objects included. |
| `Js.Prop` | api/ask.js:64-67 | `body.key` on a non-null value is the property's value when the value is an object that has it, and undefined otherwise. |
| `Js.OptProp` | api/ask.js:178 | `v?.key` is undefined for null or undefined. It is the property's value when `v` is an object that has it, and undefined otherwise. |
| `Js.OptFirst` | api/ask.js:178 | `v?.[0]` is an array's first element, a string's first character, or an object's property `"0"`, and undefined otherwise. |
| `Handler.Header` | api/ask.js:39-42 | `req.headers.get(name)` is the header's value when it is present and `null` otherwise. |
| `Js.Or` | api/ask.js:39-42 | `a \|\| b` is `a` when `a` is truthy and `b` otherwise, so it is truthy exactly when one of them is. |
| `Handler.ClientKey` | api/ask.js:39-42 | The rate-limit key is never empty. It is a non-empty `x-forwarded-for` when one is present. Otherwise it is a non-empty `cf-connecting-ip` when one is present. It is `"unknown"` when both are absent or empty, and it is always one of these three. |
| `Handler.Configured` | api/ask.js:51-52 | The API key passes `if (!apiKey)` exactly when it is set and non-empty. |
| `Handler.ReadRequest` | api/ask.js:59-83 | Any method other than GET and POST is refused with 405. A POST whose body does not parse, or parses to `null`, is refused with 400 "Invalid JSON body". For a POST with an object body, the question is `body.question`, the language is `body.language` when truthy and `"en"` otherwise, the history is `body.history` when it is an array and empty otherwise, and the stream flag is the truthiness of `body.stream`. For a GET, the question is the `question` parameter or `null`, the language is a non-empty `language` parameter or `"en"`, the history is empty and there is no streaming. |
| `Handler.Decide` | api/ask.js:35-127 | Each rung of the ladder rejects exactly when every earlier check passed and its own check fails. A question is accepted exactly when it is a non-empty string of at most 4000 characters. The accepted call carries the question, the language, the stream flag, and messages built from the trimmed history, at most 14 of them. |
| `Handler.Handle` | api/ask.js:31-49 | OPTIONS is answered 204 and leaves the limiter's table untouched. Every other request is recorded under the client's key before any other check, and then goes through `Decide` with the limiter's verdict. |
| `Handler.Respond` | api/ask.js:150-244 | A streamed call fails only on a non-success status. A buffered call fails on a non-success status, passing the body on as details, or on a falsy answer. Status 200 is given exactly when neither failure happens, and a buffered call that passes both checks is answered. An answer is truthy and comes back with the requested language and a usage equal to `data.usage` when that is truthy and `null` otherwise. |
| `Handler.Status` | api/ask.js:35-244 | Each outcome maps to its own status, both ways. 204 is given exactly for the preflight and 200 exactly for an answer or a stream. 429 is given exactly for the rate limit and 405 exactly for a method other than GET and POST. 413 is given exactly for a too-long question, and 400 exactly for an invalid body or a missing question. 500 is given exactly for a missing key, a stream or upstream failure, or an empty answer. Every rejection and failure is 400 or more. |
| `Handler.ErrorMessage` | api/ask.js:44-233 | Every error response carries a non-empty error text. |
| `Handler.ErrorTextIdentifiesRejection` | api/ask.js:44-233 | Two error responses carry the same text exactly when they are the same rejection; upstream failures differ only in their details. |
| `Handler.AnswerOf` | api/ask.js:228 | `data?.choices?.[0]?.message?.content` is undefined for a null or undefined reply, and is defined only when the reply is an object with `choices`. |
| `Handler.AnswerFromFirstChoice` | api/ask.js:228 | When the first choice of the reply carries a message content, that content is the answer, whatever other keys the reply has. |
| `Handler.KeyCheckedBeforeMethod` | api/ask.js:51-77 | With no API key, or an empty one, another method such as PUT gets 500, not 405. With a key, it gets 405. |
| `Handler.IncotermScenario` | api/ask.js:59-244 | The POST `{"question":"What is an Incoterm?"}` is accepted with two messages. The service's answer comes back with language `"en"` and the usage passed through. |
| `Prompt.HasStringContent` | api/ask.js:100-102 | An entry passes `m && typeof m.content === "string"` exactly when it is an object with a string `content`. |
| `Prompt.LastEntries` | api/ask.js:100 | `slice(-12)` is the last twelve entries, or all of them when there are fewer. |
| `Prompt.TrimHistory` | api/ask.js:99-102 | At most 12 entries are kept. Each kept entry is among the last twelve and has string `content`. Every such entry among the last twelve is kept. |
| `Prompt.TrimmedHistoryIsOrdered` | api/ask.js:100-102 | The trimmed history keeps the order of the entries it keeps. |
| `Prompt.CutBeforeFilter` | api/ask.js:100-102 | The cut happens before the filter. Take 13 entries where only the oldest is well-formed: the trimmed history is empty, although filtering first would keep that entry. |
| `Prompt.UserTurn` | api/ask.js:126 | The user turn is an object with exactly the keys `role` and `content`, where the role is `"user"` and the content is the question, so it has string content. |
| `Prompt.Messages` | api/ask.js:123-127 | The handler's own system prompt comes first, then the history unchanged, then the user's question. The handler adds no second system prompt of its own. |
| `Prompt.SystemRoleInHistoryForwarded` | api/ask.js:100-125 | The history filter looks only at `content`. A history entry with role `"system"` and string content is kept and forwarded right after the handler's system prompt. |
| `Stream.Lines` | api/ask.js:163-167 | The lines of all reads, each read split on `"\n"` by itself and filtered by `Boolean`, are non-empty and contain no newline. |
| `Stream.LinesAppend` | api/ask.js:163-167 | The lines of two runs of reads are the lines of the first run followed by the lines of the second. |
| `Stream.NonEmpty` | api/ask.js:167 | `filter(Boolean)` keeps a line exactly when the line is truthy, that is, non-empty. |
| `Stream.ChunkLines` | api/ask.js:167 | The lines of a read are non-empty and contain no newline. |
| `Stream.IsDataLine` | api/ask.js:170 | `line.startsWith("data: ")` holds exactly when `data: ` is a prefix of the line. |
| `Stream.PrefixedLine` | api/ask.js:170-171 | `line.startsWith("data: ")` holds exactly when the line is the prefix followed by some text, and that text is then what `replace` leaves. |
| `Stream.Payload` | api/ask.js:171 | Removing the first `data: ` from a data line leaves the text after the prefix: the prefix followed by it is the line. |
| `Stream.DeltaOf` | api/ask.js:178 | The `json.choices` access throws exactly when the parsed frame is `null`. A defined delta content needs an object frame with `choices`. |
| `Stream.DeltaOfFirstChoice` | api/ask.js:178 | When the first choice of the frame carries a delta content, that content is read, whatever other keys the frame has. |
| `Stream.Classify` | api/ask.js:169-183 | A line is ignored exactly when it lacks the `data: ` prefix. It ends the stream exactly when its payload is `[DONE]`. It forwards a token exactly when it is another data line whose payload parses to a non-null value with a truthy delta content, and the token is that content. |
| `Stream.Decode` | api/ask.js:162-186 | Every forwarded token is truthy, and no more tokens are forwarded than there are lines. |
| `Stream.DecodeAppend` | api/ask.js:162-186 | A second run of lines contributes only when the first did not end the stream. |
| `Stream.NothingAfterDone` | api/ask.js:172-175 | Nothing after the first `[DONE]` is forwarded, and the stream is then closed. |
| `Stream.NonDataLinesIgnored` | api/ask.js:170 | Removing the lines without the `data: ` prefix changes nothing. |
| `Stream.EmptyLinesIgnored` | api/ask.js:167 | Removing the empty lines changes nothing. |
| `Stream.SkippedFrameTransparent` | api/ask.js:176-182 | A frame that does not parse, or has no truthy delta content, is dropped without stopping the stream. |
| `Stream.DeltaFrameRelayed` | api/ask.js:170-181 | A data line whose payload parses to a frame whose first choice has a delta content `t`, other keys allowed, forwards `t` when it is truthy. |
| `Stream.TwoTokensThenDone` | api/ask.js:162-186 | The frames `A`, `B` and `[DONE]` forward exactly "A" then "B" and close the stream. |
| `Stream.DecodeSnoc` | api/ask.js:169-183 | Decoding one more line extends the relay by that line's frame. |
| `Stream.RelayLines` | api/ask.js:169-184 | The inner `for` loop forwards exactly the relay of its lines, and stops at `[DONE]`. |
| `Stream.RelayStream` | api/ask.js:162-186 | The read loop as written forwards exactly the relay of the lines of all reads, each read split on its own. |
| `Stream.FrameSplitAcrossReadsIsLost` | api/ask.js:166-167 | Split a frame across two reads as `"data: "` and its JSON text: nothing is forwarded. The same bytes in one read forward the token. |
| `Stream.CarryOver` | api/ask.js:166-167 | With a partial line carried over, the lines of the text read so far plus the next read are the complete lines followed by the lines of the carried part plus that read. |
| `Stream.BufferedRelayStream` | api/ask.js:162-186 | The buffered read loop forwards exactly the relay of the lines of the whole body, however the body was cut into reads. |

## Left out

- The network calls to the chat-completion service (`fetch`) are out of scope. Their request bodies carry the fixed model id and temperature. The model replaces the calls with the `Reply` given to `Handler.Respond` and the reads given to the stream relay.
- A failing `openaiRes.json()`, which makes the handler throw, is not modelled. Neither is a failing `reader.read()`.
- The `Response` objects and the CORS headers (`cors`) are left out. Each outcome is represented by its status (`Handler.Status`) and its error text (`Handler.ErrorMessage`).
- `JSON.parse` and `req.json()` are parameters. Their outcome is a JSON value or `Malformed`.
- `TextEncoder` and `TextDecoder` are left out. Reads are already-decoded strings. A multi-byte character cut between two reads is therefore not modelled. Neither is the conversion of a non-string token to text by `encoder.encode`.
- The text of the system prompt is not modelled. Only the language it embeds is represented (`Prompt.Message.System`).
- Lengths count characters of `seq<char>`, not UTF-16 code units as `question.length` does.
- Header lookup is by exact lower-case name. The case-insensitivity of `Headers.get` is not modelled.
- `new URL(req.url)` failing is not modelled. A GET's query parameters are given as a map.
- `Handler.Handle`: the `OPENAI_API_KEY` variable and `Date.now()` are parameters.
- Concurrency between requests sharing one edge instance is not modelled, because calls to the limiter are sequential in the model.
- JSON numbers are reals, so `NaN` cannot arise.
- JavaScript built-in properties are not modelled: `Js.Prop` reads only own properties of objects. The keys the handler reads (`question`, `language`, `history`, `stream`, `choices`, `delta`, `message`, `content`, `usage`) are not built-in members of JSON values.
- `controller.enqueue` is represented by the returned tokens. The `done` flag records the close caused by `[DONE]` (api/ask.js:172-174). Returning after the last read stands for the `controller.close()` at api/ask.js:186.

## Findings

| source | as written | input that shows it | evidently intended | confidence | as-written member | corrected member |
|---|---|---|---|---|---|---|
| api/ask.js:166-167 | Each read is split on `"\n"` by itself, so a line cut between two reads becomes two lines. | Two reads, `"data: "` then `{"choices":[{"delta":{"content":"A"}}]}`. Nothing is forwarded, although the same bytes in one read forward "A". | Carry the partial last line of a read over to the next read, and relay what is left when the body ends. | not executed | `Stream.FrameSplitAcrossReadsIsLost` | `Stream.BufferedRelayStream` |

=== FILE: Handler.dfy ===
/** The request handler of api/ask.js: the fixed ladder of checks that turns a request
    into an error response or into a call to the chat-completion service, and the mapping
    of that service's reply onto the response. */
module Handler {
  import opened Js
  import opened Prompt
  import RateLimit

  const MAX_QUESTION_LEN: nat := 4000

  /** The name of a method the handler does not serve: never OPTIONS, GET or POST. */
  type OtherMethod = name: string | name != "OPTIONS" && name != "GET" && name != "POST" witness "PUT"

  /** The request method with what the handler reads for it: the query parameters of a
      GET, the outcome of `req.json()` for a POST. */
  datatype Method =
    | OPTIONS
    | GET(query: map<string, string>)
    | POST(body: Parsed)
    | Other(name: OtherMethod)

  /** Header names are stored lower-case. */
  datatype Request = Request(verb: Method, headers: map<string, string>)

  /** What the upstream service is asked for once every check has passed. */
  datatype Call = Call(question: string, language: Value, messages: seq<Message>, stream: bool)

  /** Every way the handler ends, plus `Accepted`, which goes on to the upstream call. */
  datatype Outcome =
    | Preflight
    | RateLimited
    | KeyMissing
    | MethodNotAllowed
    | InvalidJson
    | MissingQuestion
    | QuestionTooLong
    | Accepted(call: Call)
    | StreamFailed
    | UpstreamFailed(details: Value)
    | EmptyAnswer
    | Answered(answer: Value, language: Value, usage: Value)
    | Streaming

  /** The HTTP status of each response. */
  function Status(o: Outcome): (s: int)
    requires !o.Accepted?
    ensures s == 204 <==> o.Preflight?
    ensures s == 200 <==> o.Answered? || o.Streaming?
    ensures s >= 400 <==> !(o.Preflight? || o.Answered? || o.Streaming?)
    ensures s == 429 <==> o.RateLimited?
    ensures s == 405 <==> o.MethodNotAllowed?
    ensures s == 413 <==> o.QuestionTooLong?
    ensures s == 400 <==> o.InvalidJson? || o.MissingQuestion?
    ensures s == 500 <==> o.KeyMissing? || o.StreamFailed? || o.UpstreamFailed? || o.EmptyAnswer?
  {
    match o
    case Preflight => 204
    case RateLimited => 429
    case KeyMissing => 500
    case MethodNotAllowed => 405
    case InvalidJson => 400
    case MissingQuestion => 400
    case QuestionTooLong => 413
    case StreamFailed => 500
    case UpstreamFailed(_) => 500
    case EmptyAnswer => 500
    case Answered(_, _, _) => 200
    case Streaming => 200
  }

  /** The `error` field of the JSON body of each error response. */
  function ErrorMessage(o: Outcome): (msg: string)
    requires !o.Accepted? && !o.Preflight? && !o.Answered? && !o.Streaming?
    ensures msg != ""
  {
    match o
    case RateLimited => "Rate limit exceeded"
    case KeyMissing => "OPENAI_API_KEY not configured"
    case MethodNotAllowed => "Use GET or POST"
    case InvalidJson => "Invalid JSON body"
    case MissingQuestion => "Missing question"
    case QuestionTooLong => "Question too long"
    case StreamFailed => "OpenAI stream error"
    case UpstreamFailed(_) => "OpenAI error"
    case EmptyAnswer => "Empty response from model"
  }

  /** `req.headers.get(name)`: the header's value, or null when it is absent. */
  function Header(headers: map<string, string>, name: string): (v: Value)
    ensures v.Str? || v.Null?
    ensures v.Null? <==> name !in headers
    ensures v.Str? ==> v.s == headers[name]
  {
    if name in headers then Str(headers[name]) else Null
  }

  /** `x-forwarded-for || cf-connecting-ip || "unknown"`: the rate-limit key of the client. */
  function ClientKey(headers: map<string, string>): (ip: string)
    ensures ip != ""
    ensures "x-forwarded-for" in headers && headers["x-forwarded-for"] != "" ==> ip == headers["x-forwarded-for"]
    ensures ip == "unknown" || ("x-forwarded-for" in headers && ip == headers["x-forwarded-for"])
                            || ("cf-connecting-ip" in headers && ip == headers["cf-connecting-ip"])
    ensures ("x-forwarded-for" !in headers || headers["x-forwarded-for"] == "") ==>
              "cf-connecting-ip" in headers && headers["cf-connecting-ip"] != "" ==> ip == headers["cf-connecting-ip"]
    ensures ip == "unknown" <== ("x-forwarded-for" !in headers || headers["x-forwarded-for"] == "")
                              && ("cf-connecting-ip" !in headers || headers["cf-connecting-ip"] == "")
  {
    Or(Or(Header(headers, "x-forwarded-for"), Header(headers, "cf-connecting-ip")), Str("unknown")).s
  }

  /** `!apiKey` fails both for an unset variable and for an empty one. */
  predicate Configured(apiKey: Option<string>)
    ensures Configured(apiKey) <==> apiKey.Some? && Truthy(Str(apiKey.value))
  {
    apiKey.Some? && apiKey.value != ""
  }

  /** What the handler reads from the request before validating it. */
  datatype Fields = Fields(question: Value, language: Value, history: seq<Value>, stream: bool)

  datatype Read = Stop(outcome: Outcome) | Go(fields: Fields)

  /** The `try` block: read a POST's JSON body (property access on a `null` body throws and
      lands in the `catch` as well), a GET's query parameters, or refuse any other method. */
  function ReadRequest(m: Method): (r: Read)
    requires !m.OPTIONS?
    ensures r == Stop(MethodNotAllowed) <==> m.Other?
    ensures r == Stop(InvalidJson) <==> m.POST? && (m.body.Malformed? || Nullish(m.body.value))
    ensures r.Stop? ==> r.outcome == MethodNotAllowed || r.outcome == InvalidJson
    ensures r.Go? ==> Truthy(r.fields.language)
    ensures r.Go? && m.GET? ==> r.fields.history == [] && !r.fields.stream
    ensures m.POST? && m.body.Json? && !Nullish(m.body.value) ==>
              var body := m.body.value;
              && r.Go?
              && r.fields.question == Prop(body, "question")
              && r.fields.language == (if Truthy(Prop(body, "language")) then Prop(body, "language") else Str("en"))
              && r.fields.history == (if Prop(body, "history").Array? then Prop(body, "history").elems else [])
              && r.fields.stream == Truthy(Prop(body, "stream"))
    ensures m.GET? ==>
              && r.Go?
              && r.fields.question == (if "question" in m.query then Str(m.query["question"]) else Null)
              && r.fields.language == (if "language" in m.query && m.query["language"] != ""
                                       then Str(m.query["language"]) else Str("en"))
  {
    match m
    case POST(parsed) =>
      if parsed.Malformed? || Nullish(parsed.value) then Stop(InvalidJson)
      else
        var body := parsed.value;
        var history := Prop(body, "history");
        Go(Fields(Prop(body, "question"),
                  Or(Prop(body, "language"), Str("en")),
                  if history.Array? then history.elems else [],
                  Truthy(Prop(body, "stream"))))
    case GET(query) =>
      Go(Fields(if "question" in query then Str(query["question"]) else Null,
                Or(if "language" in query then Str(query["language"]) else Null, Str("en")),
                [], false))
    case Other(_) => Stop(MethodNotAllowed)
  }

  /** A question passes validation exactly when it is a non-empty string of at most
      MAX_QUESTION_LEN characters. */
  predicate AcceptableQuestion(q: Value)
  {
    q.Str? && 0 < |q.s| <= MAX_QUESTION_LEN
  }

  /** Every check up to and including the API key has passed. */
  predicate PastKeyCheck(m: Method, rateAllowed: bool, apiKey: Option<string>)
  {
    !m.OPTIONS? && rateAllowed && Configured(apiKey)
  }

  /** The ladder of checks in the handler, given the rate limiter's verdict and the
      configured API key. Each rejection happens exactly when every earlier check passed
      and its own fails. */
  function Decide(m: Method, rateAllowed: bool, apiKey: Option<string>): (o: Outcome)
    ensures o == Preflight <==> m.OPTIONS?
    ensures o == RateLimited <==> !m.OPTIONS? && !rateAllowed
    ensures o == KeyMissing <==> !m.OPTIONS? && rateAllowed && !Configured(apiKey)
    ensures o == MethodNotAllowed <==> PastKeyCheck(m, rateAllowed, apiKey) && m.Other?
    ensures o == InvalidJson <==> PastKeyCheck(m, rateAllowed, apiKey) && ReadRequest(m) == Stop(InvalidJson)
    ensures o == MissingQuestion <==>
              PastKeyCheck(m, rateAllowed, apiKey) && ReadRequest(m).Go?
              && !(ReadRequest(m).fields.question.Str? && ReadRequest(m).fields.question.s != "")
    ensures o == QuestionTooLong <==>
              PastKeyCheck(m, rateAllowed, apiKey) && ReadRequest(m).Go?
              && ReadRequest(m).fields.question.Str? && |ReadRequest(m).fields.question.s| > MAX_QUESTION_LEN
    ensures o.Accepted? <==>
              PastKeyCheck(m, rateAllowed, apiKey) && ReadRequest(m).Go?
              && AcceptableQuestion(ReadRequest(m).fields.question)
    ensures o.Accepted? ==>
              var f := ReadRequest(m).fields;
              && o.call.question == f.question.s
              && o.call.language == f.language
              && o.call.stream == f.stream
              && o.call.messages == Messages(f.language, TrimHistory(f.history), f.question.s)
              && 2 <= |o.call.messages| <= MAX_HISTORY_MESSAGES + 2
  {
    if m.OPTIONS? then Preflight
    else if !rateAllowed then RateLimited
    else if !Configured(apiKey) then KeyMissing
    else match ReadRequest(m)
      case Stop(rejection) => rejection
      case Go(f) =>
        if !Truthy(f.question) || !f.question.Str? then MissingQuestion
        else if |f.question.s| > MAX_QUESTION_LEN then QuestionTooLong
        else
          var history := TrimHistory(f.history);
          Accepted(Call(f.question.s, f.language, Messages(f.language, history, f.question.s), f.stream))
  }

  /** The handler up to the upstream call. An OPTIONS request is answered before the rate
      limiter runs and leaves its table untouched; every other request is recorded under
      the client's key and then goes through the ladder with the limiter's verdict.
      `Date.now()` and `process.env.OPENAI_API_KEY` are passed in. */
  method Handle(limiter: RateLimit.RateLimiter, req: Request, apiKey: Option<string>, now: int)
    returns (o: Outcome)
    modifies limiter
    ensures req.verb.OPTIONS? ==> o == Preflight && limiter.buckets == old(limiter.buckets)
    ensures !req.verb.OPTIONS? ==>
              var ip := ClientKey(req.headers);
              && limiter.buckets == RateLimit.Record(old(limiter.buckets), ip, now)
              && o == Decide(req.verb, RateLimit.Admits(old(limiter.buckets), ip, now), apiKey)
  {
    if req.verb.OPTIONS? {
      return Preflight;
    }
    var ip := ClientKey(req.headers);
    var allowed := limiter.Check(ip, now);
    o := Decide(req.verb, allowed, apiKey);
  }

  /** What the upstream service answered: whether its status was a success and, for a
      buffered call, the parsed JSON body. */
  datatype Reply = Reply(ok: bool, data: Value)

  /** `data?.choices?.[0]?.message?.content` */
  function AnswerOf(data: Value): (answer: Value)
    ensures Nullish(data) ==> answer.Undefined?
    ensures !answer.Undefined? ==> data.Object? && "choices" in data.props
  {
    OptProp(OptProp(OptFirst(OptProp(data, "choices")), "message"), "content")
  }

  /** The answer of a reply whose first choice carries a message content is that content,
      whatever other keys the reply has. */
  lemma AnswerFromFirstChoice(data: Value, t: Value)
    requires ChoiceContent(data, "message", t)
    ensures AnswerOf(data) == t
  {
    var choices := data.props["choices"];
    assert OptProp(data, "choices") == choices;
    assert OptFirst(choices) == choices.elems[0];
  }

  /** The response once the upstream service has replied. A streamed call fails only on a
      non-success status and otherwise starts the token stream; a buffered call fails on a
      non-success status (passing the service's body on as details) or on a falsy answer,
      and otherwise returns the answer with the requested language and `data.usage || null`. */
  function Respond(call: Call, reply: Reply): (o: Outcome)
    ensures !o.Accepted?
    ensures Status(o) == 200 <==> reply.ok && (call.stream || Truthy(AnswerOf(reply.data)))
    ensures call.stream ==> o == (if reply.ok then Streaming else StreamFailed)
    ensures !call.stream && !reply.ok ==> o == UpstreamFailed(reply.data)
    ensures !call.stream && reply.ok && !Truthy(AnswerOf(reply.data)) ==> o == EmptyAnswer
    ensures !call.stream && reply.ok && Truthy(AnswerOf(reply.data)) ==> o.Answered?
    ensures o.Answered? ==>
              && o.answer == AnswerOf(reply.data) && Truthy(o.answer)
              && o.language == call.language
              && (o.usage.Null? || Truthy(o.usage))
    ensures o.Answered? ==>
              && !Nullish(reply.data)
              && o.usage == (if Truthy(Prop(reply.data, "usage")) then Prop(reply.data, "usage") else Null)
  {
    if call.stream then
      if reply.ok then Streaming else StreamFailed
    else if !reply.ok then UpstreamFailed(reply.data)
    else
      var answer := AnswerOf(reply.data);
      if !Truthy(answer) then EmptyAnswer
      else
        assert !Nullish(reply.data);
        Answered(answer, call.language, Or(Prop(reply.data, "usage"), Null))
  }

  /** Each kind of rejection has its own error text: two error responses carry the same
      text exactly when they are the same rejection (upstream failures differ only in
      their details). */
  lemma ErrorTextIdentifiesRejection(a: Outcome, b: Outcome)
    requires !a.Accepted? && !a.Preflight? && !a.Answered? && !a.Streaming?
    requires !b.Accepted? && !b.Preflight? && !b.Answered? && !b.Streaming?
    ensures ErrorMessage(a) == ErrorMessage(b) <==> a == b || (a.UpstreamFailed? && b.UpstreamFailed?)
  {
    if ErrorMessage(a) == ErrorMessage(b) {
      var m := ErrorMessage(a);
      assert m[0] == ErrorMessage(b)[0] && |m| == |ErrorMessage(b)|;
    }
  }

  /** The API key is checked before the method: a PUT with no key configured gets 500, not 405. */
  lemma KeyCheckedBeforeMethod()
    ensures Status(Decide(Other("PUT"), true, None)) == 500
    ensures Status(Decide(Other("PUT"), true, Some(""))) == 500
    ensures Status(Decide(Other("PUT"), true, Some("sk"))) == 405
  {
  }

  /** A POST of `{"question":"What is an Incoterm?"}` with a key configured, answered by the
      service with one choice and a usage record, yields 200 with the answer, the default
      language "en" and the usage passed through. */
  lemma IncotermScenario(body: Value, data: Value)
    requires body == Object(map["question" := Str("What is an Incoterm?")])
    requires data == Object(map["choices" := Array([Object(map["message" := Object(map["content" := Str("An Incoterm is...")])])]),
                                "usage" := Object(map["total_tokens" := Number(42.0)])])
    ensures var o := Decide(POST(Json(body)), true, Some("sk"));
            && o.Accepted?
            && |o.call.messages| == 2
            && Respond(o.call, Reply(true, data))
               == Answered(Str("An Incoterm is..."), Str("en"), Object(map["total_tokens" := Number(42.0)]))
  {
    IncotermRequest(body);
    IncotermReply(data);
  }

  lemma IncotermRequest(body: Value)
    requires body == Object(map["question" := Str("What is an Incoterm?")])
    ensures ReadRequest(POST(Json(body))) == Go(Fields(Str("What is an Incoterm?"), Str("en"), [], false))
  {
    assert Prop(body, "question") == Str("What is an Incoterm?");
    assert Prop(body, "language") == Undefined && Prop(body, "history") == Undefined;
    assert Prop(body, "stream") == Undefined;
  }

  lemma IncotermReply(data: Value)
    requires data == Object(map["choices" := Array([Object(map["message" := Object(map["content" := Str("An Incoterm is...")])])]),
                                "usage" := Object(map["total_tokens" := Number(42.0)])])
    ensures AnswerOf(data) == Str("An Incoterm is...")
    ensures Prop(data, "usage") == Object(map["total_tokens" := Number(42.0)])
  {
    var choice := Object(map["message" := Object(map["content" := Str("An Incoterm is...")])]);
    assert OptProp(data, "choices") == Array([choice]);
    assert OptFirst(Array([choice])) == choice;
  }
}

=== FILE: Js.dfy ===
/** The small part of JavaScript value semantics that the handler relies on:
    JSON values, truthiness (`if (x)`, `x || y`, `Boolean(x)`) and property access
    with and without optional chaining. */
module Js {

  datatype Option<T> = None | Some(value: T)

  /** A value as produced by `JSON.parse` or read from a JSON body.
      JSON numbers are modelled as reals (no NaN can come out of JSON). */
  datatype Value =
    | Undefined
    | Null
    | Bool(b: bool)
    | Number(n: real)
    | Str(s: string)
    | Array(elems: seq<Value>)
    | Object(props: map<string, Value>)

  /** Outcome of parsing a text as JSON (`req.json()`, `JSON.parse`): it either throws or yields a value. */
  datatype Parsed = Malformed | Json(value: Value)

  /** JavaScript truthiness: `undefined`, `null`, `false`, `0` and `""` are falsy, everything else truthy. */
  predicate Truthy(v: Value)
    ensures Truthy(v) <==> v !in {Undefined, Null, Bool(false), Number(0.0), Str("")}
  {
    match v
    case Undefined => false
    case Null => false
    case Bool(b) => b
    case Number(n) => n != 0.0
    case Str(s) => s != ""
    case Array(_) => true
    case Object(_) => true
  }

  predicate Nullish(v: Value)
  {
    v.Undefined? || v.Null?
  }

  /** `a || b` */
  function Or(a: Value, b: Value): (r: Value)
    ensures Truthy(r) <==> Truthy(a) || Truthy(b)
    ensures Truthy(a) ==> r == a
    ensures !Truthy(a) ==> r == b
  {
    if Truthy(a) then a else b
  }

  /** `v.key` (or `v[key]`) on a value that is not null or undefined; on those JavaScript
      throws a TypeError, which is why the precondition is there. Only own properties of
      objects are modelled: built-in members such as `length` are never consulted by the
      keys the handler reads. */
  function Prop(v: Value, key: string): (r: Value)
    requires !Nullish(v)
    ensures !r.Undefined? ==> v.Object? && key in v.props
    ensures v.Object? && key in v.props ==> r == v.props[key]
  {
    if v.Object? && key in v.props then v.props[key] else Undefined
  }

  /** `v?.key`: undefined when `v` is null or undefined, otherwise `v.key`. */
  function OptProp(v: Value, key: string): (r: Value)
    ensures Nullish(v) ==> r.Undefined?
    ensures !r.Undefined? ==> v.Object? && key in v.props && r == v.props[key]
    ensures v.Object? && key in v.props ==> r == v.props[key]
  {
    if Nullish(v) then Undefined else Prop(v, key)
  }

  /** `v` has the shape of a chat-completion reply whose first choice carries `t` as the
      `content` of its `field` object (`delta` in a stream frame, `message` in a buffered
      reply); other keys may be present anywhere. */
  predicate ChoiceContent(v: Value, field: string, t: Value)
  {
    && v.Object? && "choices" in v.props
    && v.props["choices"].Array? && |v.props["choices"].elems| > 0
    && v.props["choices"].elems[0].Object? && field in v.props["choices"].elems[0].props
    && v.props["choices"].elems[0].props[field].Object?
    && "content" in v.props["choices"].elems[0].props[field].props
    && v.props["choices"].elems[0].props[field].props["content"] == t
  }

  /** `v?.[0]`: the first element of an array, the first character of a string,
      the property "0" of an object, and undefined otherwise. */
  function OptFirst(v: Value): (r: Value)
    ensures v.Array? && |v.elems| > 0 ==> r == v.elems[0]
    ensures v.Str? && |v.s| > 0 ==> r == Str([v.s[0]])
    ensures v.Object? && "0" in v.props ==> r == v.props["0"]
    ensures !r.Undefined? ==> (v.Array? && |v.elems| > 0) || (v.Str? && |v.s| > 0) || (v.Object? && "0" in v.props)
  {
    match v
    case Array(es) => if |es| > 0 then es[0] else Undefined
    case Str(s) => if |s| > 0 then Str([s[0]]) else Undefined
    case Object(m) => if "0" in m then m["0"] else Undefined
    case _ => Undefined
  }
}

=== FILE: Prompt.dfy ===
/** History trimming and assembly of the chat messages sent upstream (api/ask.js). */
module Prompt {
  import opened Js
  import opened Seqs

  const MAX_HISTORY_MESSAGES: nat := 12

  /** `m && typeof m.content === "string"`: the entry is truthy and carries string content
      (the empty string included: this is a type test, not a truthiness test). */
  predicate HasStringContent(m: Value)
    ensures HasStringContent(m) <==> m.Object? && "content" in m.props && m.props["content"].Str?
  {
    Truthy(m) && Prop(m, "content").Str?
  }

  /** `history.slice(-MAX_HISTORY_MESSAGES)`: the last entries, or all of them when there are fewer. */
  function LastEntries(history: seq<Value>): (r: seq<Value>)
    ensures |r| == if |history| <= MAX_HISTORY_MESSAGES then |history| else MAX_HISTORY_MESSAGES
    ensures r == history[|history| - |r|..]
  {
    if |history| <= MAX_HISTORY_MESSAGES then history else history[|history| - MAX_HISTORY_MESSAGES..]
  }

  /** `history.slice(-12).filter(m => m && typeof m.content === "string")`: the cut comes
      first, so only the last twelve entries are candidates, and of those exactly the ones
      with string content are kept. */
  function TrimHistory(history: seq<Value>): (r: seq<Value>)
    ensures |r| <= MAX_HISTORY_MESSAGES
    ensures forall i :: 0 <= i < |r| ==> HasStringContent(r[i]) && r[i] in LastEntries(history)
    ensures forall i :: 0 <= i < |LastEntries(history)| && HasStringContent(LastEntries(history)[i]) ==>
              LastEntries(history)[i] in r
  {
    Filter(HasStringContent, LastEntries(history))
  }

  /** The trimmed history keeps the relative order of the entries it keeps, all of which
      come from the last twelve entries of the input. */
  lemma TrimmedHistoryIsOrdered(history: seq<Value>)
    ensures var n := |LastEntries(history)|;
            IsSubsequence(TrimHistory(history), history[|history| - n..])
  {
    FilterIsSubsequence(HasStringContent, LastEntries(history));
  }

  /** Because the cut happens before the filter, a well-formed entry is dropped when it is
      older than the last twelve, even if all of those are malformed: the result is then
      empty although filtering first would have kept that entry. */
  lemma {:induction false} CutBeforeFilter(history: seq<Value>)
    requires |history| == MAX_HISTORY_MESSAGES + 1
    requires HasStringContent(history[0])
    requires forall i :: 1 <= i < |history| ==> !HasStringContent(history[i])
    ensures TrimHistory(history) == []
    ensures Filter(HasStringContent, history) == [history[0]]
  {
    FilterKeepsNone(HasStringContent, history[1..]);
    assert LastEntries(history) == history[1..];
  }

  /** The filter looks only at `content`: a history entry that claims the system role is
      forwarded as an ordinary entry, right after the handler's own system prompt. */
  lemma SystemRoleInHistoryForwarded(language: Value, entry: Value, question: string)
    requires entry.Object? && "role" in entry.props && entry.props["role"] == Str("system")
    requires "content" in entry.props && entry.props["content"].Str?
    ensures TrimHistory([entry]) == [entry]
    ensures Messages(language, TrimHistory([entry]), question)[1] == Entry(entry)
  {
    assert LastEntries([entry]) == [entry];
    FilterKeepsAll(HasStringContent, [entry]);
  }

  /** One entry of the `messages` array. The system turn's text is a fixed instruction in
      which only the reply language varies, so it is represented by that language; every
      other entry is the JavaScript value placed in the array. */
  datatype Message = System(language: Value) | Entry(value: Value)

  /** `{ role: "user", content: question }` */
  function UserTurn(question: string): (turn: Value)
    ensures turn.Object? && turn.props.Keys == {"role", "content"}
    ensures turn.props["role"] == Str("user") && turn.props["content"] == Str(question)
    ensures HasStringContent(turn)
  {
    Object(map["role" := Str("user"), "content" := Str(question)])
  }

  /** `[{ role: "system", content: systemPrompt }, ...history, { role: "user", content: question }]` */
  function Messages(language: Value, history: seq<Value>, question: string): (r: seq<Message>)
    ensures |r| == |history| + 2
    ensures r[0] == System(language)
    ensures r[|r| - 1] == Entry(UserTurn(question))
    ensures forall i :: 0 <= i < |history| ==> r[i + 1] == Entry(history[i])
    ensures forall i :: 0 < i < |r| ==> !r[i].System?
  {
    [System(language)] + seq(|history|, i requires 0 <= i < |history| => Entry(history[i])) + [Entry(UserTurn(question))]
  }
}

=== FILE: RateLimit.dfy ===
/** The per-instance sliding-window rate limiter of api/ask.js: a table from client key
    to the timestamps (milliseconds) of that client's recent calls. */
module RateLimit {
  import opened Seqs

  /** Calls allowed per window. */
  const RATE_LIMIT: nat := 30
  /** Window length in milliseconds. */
  const RATE_WINDOW: int := 60_000

  /** `rateBucket.get(ip) || []`: the client's timestamps, or none for an unknown client. */
  function Lookup(buckets: map<string, seq<int>>, ip: string): (bucket: seq<int>)
    ensures ip !in buckets ==> bucket == []
    ensures ip in buckets ==> bucket == buckets[ip]
  {
    if ip in buckets then buckets[ip] else []
  }

  /** A timestamp still counts at time `now` when it is less than one window old. */
  predicate InWindow(now: int, t: int)
    ensures InWindow(now, t) <==> t > now - RATE_WINDOW
  {
    now - t < RATE_WINDOW
  }

  /** `bucket.filter(t => now - t < RATE_WINDOW)` */
  function Recent(bucket: seq<int>, now: int): (r: seq<int>)
    ensures forall i :: 0 <= i < |r| ==> InWindow(now, r[i]) && r[i] in bucket
    ensures forall i :: 0 <= i < |bucket| && InWindow(now, bucket[i]) ==> bucket[i] in r
  {
    Filter(t => InWindow(now, t), bucket)
  }

  /** The table after a call from `ip` at `now`: that client's stale timestamps are dropped
      and `now` is appended, whether or not the call is allowed; every other client's
      entry is left as it was. */
  function Record(buckets: map<string, seq<int>>, ip: string, now: int): (r: map<string, seq<int>>)
    ensures ip in r && |r[ip]| >= 1 && r[ip][|r[ip]| - 1] == now
    ensures forall i :: 0 <= i < |r[ip]| - 1 ==> InWindow(now, r[ip][i]) && r[ip][i] in Lookup(buckets, ip)
    ensures forall i :: 0 <= i < |Lookup(buckets, ip)| && InWindow(now, Lookup(buckets, ip)[i]) ==>
              Lookup(buckets, ip)[i] in r[ip]
    ensures r.Keys == buckets.Keys + {ip}
    ensures forall k :: k in buckets && k != ip ==> r[k] == buckets[k]
    ensures r[ip] == Recent(Lookup(buckets, ip), now) + [now]
    ensures |r[ip]| == Count(t => InWindow(now, t), Lookup(buckets, ip)) + 1
    ensures IsSubsequence(r[ip][..|r[ip]| - 1], Lookup(buckets, ip))
  {
    var kept := Recent(Lookup(buckets, ip), now);
    var recent := kept + [now];
    DropLast(kept, now);
    FilterLength(t => InWindow(now, t), Lookup(buckets, ip));
    FilterIsSubsequence(t => InWindow(now, t), Lookup(buckets, ip));
    buckets[ip := recent]
  }

  /** The verdict `recent.length <= RATE_LIMIT`, taken on the table after the call is
      recorded: a call is allowed exactly when fewer than RATE_LIMIT earlier calls of the
      same client are still inside the window. */
  function Admits(buckets: map<string, seq<int>>, ip: string, now: int): (allowed: bool)
    ensures allowed <==> Count(t => InWindow(now, t), Lookup(buckets, ip)) + 1 <= RATE_LIMIT
  {
    FilterLength(t => InWindow(now, t), Lookup(buckets, ip));
    |Record(buckets, ip, now)[ip]| <= RATE_LIMIT
  }

  /** The table after a series of calls from one client at the given times, oldest first. */
  function Replay(buckets: map<string, seq<int>>, ip: string, times: seq<int>): map<string, seq<int>>
    decreases |times|
  {
    if times == [] then buckets
    else Record(Replay(buckets, ip, times[..|times| - 1]), ip, times[|times| - 1])
  }

  /** All calls of a burst lie within one window of each other. */
  predicate WithinOneWindow(times: seq<int>)
  {
    forall i, j :: 0 <= j < i < |times| ==> InWindow(times[i], times[j])
  }

  /** Replaying one more call records it on top of the earlier ones. */
  lemma ReplayOneMore(buckets: map<string, seq<int>>, ip: string, times: seq<int>, k: nat)
    requires k < |times|
    ensures Replay(buckets, ip, times[..k + 1]) == Record(Replay(buckets, ip, times[..k]), ip, times[k])
  {
    assert times[..k + 1][..k] == times[..k];
  }

  /** When every recorded call of the client is still inside the window, the call is
      appended to them. */
  lemma RecordKeepsAll(buckets: map<string, seq<int>>, ip: string, now: int, prior: seq<int>)
    requires Lookup(buckets, ip) == prior
    requires forall i :: 0 <= i < |prior| ==> InWindow(now, prior[i])
    ensures Lookup(Record(buckets, ip, now), ip) == prior + [now]
  {
    FilterKeepsAll(t => InWindow(now, t), prior);
    assert Record(buckets, ip, now)[ip] == Recent(prior, now) + [now];
  }

  /** During a burst that fits in one window, a client that started with no recorded calls
      has every call of the burst recorded, denied ones included. */
  lemma {:induction false} BurstIsRecorded(buckets: map<string, seq<int>>, ip: string, times: seq<int>, k: nat)
    requires Lookup(buckets, ip) == []
    requires WithinOneWindow(times)
    requires k <= |times|
    ensures Lookup(Replay(buckets, ip, times[..k]), ip) == times[..k]
  {
    if k > 0 {
      var prior, now := times[..k - 1], times[k - 1];
      assert forall i :: 0 <= i < |prior| ==> InWindow(now, prior[i]);
      BurstIsRecorded(buckets, ip, times, k - 1);
      var before := Replay(buckets, ip, prior);
      RecordKeepsAll(before, ip, now, prior);
      ReplayOneMore(buckets, ip, times, k - 1);
      TakeOneMore(times, k - 1);
    }
  }

  /** Within one window, call number k (counting from 0) of a fresh client is allowed
      exactly when k < RATE_LIMIT. */
  lemma BurstVerdict(buckets: map<string, seq<int>>, ip: string, times: seq<int>, k: nat)
    requires Lookup(buckets, ip) == []
    requires WithinOneWindow(times)
    requires k < |times|
    ensures Admits(Replay(buckets, ip, times[..k]), ip, times[k]) <==> k < RATE_LIMIT
  {
    BurstIsRecorded(buckets, ip, times, k);
    var prior := times[..k];
    FilterKeepsAll(t => InWindow(times[k], t), prior);
    FilterLength(t => InWindow(times[k], t), prior);
  }

  /** 31 calls from a fresh client, in time order and all within one window:
      the first 30 are allowed and the 31st is denied. */
  lemma ThirtyFirstCallDenied(buckets: map<string, seq<int>>, ip: string, times: seq<int>)
    requires Lookup(buckets, ip) == []
    requires |times| == 31
    requires forall i, j :: 0 <= j <= i < |times| ==> times[j] <= times[i]
    requires times[30] - times[0] < RATE_WINDOW
    ensures forall k :: 0 <= k < 30 ==> Admits(Replay(buckets, ip, times[..k]), ip, times[k])
    ensures !Admits(Replay(buckets, ip, times[..30]), ip, times[30])
  {
    assert WithinOneWindow(times) by {
      forall i, j | 0 <= j < i < |times|
        ensures InWindow(times[i], times[j])
      {
        assert times[0] <= times[j] && times[i] <= times[30];
      }
    }
    forall k | 0 <= k < 30
      ensures Admits(Replay(buckets, ip, times[..k]), ip, times[k])
    {
      BurstVerdict(buckets, ip, times, k);
    }
    BurstVerdict(buckets, ip, times, 30);
  }

  /** Once a whole window has passed since every recorded call of a client, its next call
      is allowed and leaves only that call recorded, however many calls were denied before. */
  lemma AllowedAfterQuietWindow(buckets: map<string, seq<int>>, ip: string, now: int)
    requires forall i :: 0 <= i < |Lookup(buckets, ip)| ==> now - Lookup(buckets, ip)[i] >= RATE_WINDOW
    ensures Admits(buckets, ip, now)
    ensures Record(buckets, ip, now)[ip] == [now]
  {
    FilterKeepsNone(t => InWindow(now, t), Lookup(buckets, ip));
    var recent := Recent(Lookup(buckets, ip), now);
    assert Record(buckets, ip, now)[ip] == recent + [now];
  }

  /** The module-level `rateBucket` map together with `rateLimit(ip)`; the clock reading
      `Date.now()` is passed in as `now`. */
  class RateLimiter {
    var buckets: map<string, seq<int>>

    constructor ()
      ensures buckets == map[]
    {
      buckets := map[];
    }

    /** `rateLimit(ip)` */
    method Check(ip: string, now: int) returns (allowed: bool)
      modifies this
      ensures buckets == Record(old(buckets), ip, now)
      ensures allowed == Admits(old(buckets), ip, now)
    {
      var bucket := if ip in buckets then buckets[ip] else [];
      var recent := Recent(bucket, now);
      recent := recent + [now];
      buckets := buckets[ip := recent];
      allowed := |recent| <= RATE_LIMIT;
    }
  }
}

=== FILE: Seqs.dfy ===
/** Sequence operations the handler takes from the JavaScript library:
    `Array.prototype.filter`, `String.prototype.split` on one separator character,
    and the flattening of a list of lists. */
module Seqs {

  /** `s.filter(p)`: the elements of `s` that satisfy `p`, in their original order. */
  function Filter<T(==)>(p: T -> bool, s: seq<T>): (r: seq<T>)
    ensures |r| <= |s|
    ensures forall i :: 0 <= i < |r| ==> p(r[i]) && r[i] in s
    ensures forall i :: 0 <= i < |s| && p(s[i]) ==> s[i] in r
  {
    if s == [] then []
    else (if p(s[0]) then [s[0]] else []) + Filter(p, s[1..])
  }

  /** The number of elements of `s` that satisfy `p`, counted with repetition. */
  function Count<T>(p: T -> bool, s: seq<T>): (n: nat)
    ensures n <= |s|
  {
    if s == [] then 0
    else (if p(s[0]) then 1 else 0) + Count(p, s[1..])
  }

  /** `r` can be obtained from `s` by deleting elements (greedy matching from the front). */
  predicate IsSubsequence<T(==)>(r: seq<T>, s: seq<T>)
    decreases |s|
  {
    if r == [] then true
    else if s == [] then false
    else if r[0] == s[0] then IsSubsequence(r[1..], s[1..])
    else IsSubsequence(r, s[1..])
  }

  /** Filtering keeps a sequence whole when every element passes. */
  lemma {:induction false} FilterKeepsAll<T>(p: T -> bool, s: seq<T>)
    requires forall i :: 0 <= i < |s| ==> p(s[i])
    ensures Filter(p, s) == s
  {
    if s != [] {
      FilterKeepsAll(p, s[1..]);
    }
  }

  /** Filtering keeps nothing when no element passes. */
  lemma {:induction false} FilterKeepsNone<T>(p: T -> bool, s: seq<T>)
    requires forall i :: 0 <= i < |s| ==> !p(s[i])
    ensures Filter(p, s) == []
  {
    if s != [] {
      FilterKeepsNone(p, s[1..]);
    }
  }

  /** The length of a filtered sequence is the number of elements that pass. */
  lemma {:induction false} FilterLength<T>(p: T -> bool, s: seq<T>)
    ensures |Filter(p, s)| == Count(p, s)
  {
    if s != [] {
      FilterLength(p, s[1..]);
    }
  }

  /** What `filter` keeps is a subsequence of its input: nothing is reordered. */
  lemma {:induction false} FilterIsSubsequence<T>(p: T -> bool, s: seq<T>)
    ensures IsSubsequence(Filter(p, s), s)
  {
    if s != [] {
      FilterIsSubsequence(p, s[1..]);
      var rest := Filter(p, s[1..]);
      if p(s[0]) {
        assert Filter(p, s) == [s[0]] + rest;
        assert ([s[0]] + rest)[1..] == rest;
      } else {
        assert Filter(p, s) == rest;
        if rest != [] {
          assert p(rest[0]);
        }
      }
    }
  }

  /** `s.split(sep)` for a one-character separator: the pieces between separators,
      including empty ones; a string without `sep` gives itself as the only piece. */
  function Split(s: string, sep: char): (parts: seq<string>)
    ensures |parts| >= 1
  {
    if s == [] then [[]]
    else
      var rest := Split(s[1..], sep);
      if s[0] == sep then [[]] + rest
      else [[s[0]] + rest[0]] + rest[1..]
  }

  /** No piece contains the separator. */
  lemma {:induction false} SplitPiecesAreSeparatorFree(s: string, sep: char)
    ensures forall i :: 0 <= i < |Split(s, sep)| ==> sep !in Split(s, sep)[i]
  {
    if s != [] {
      SplitPiecesAreSeparatorFree(s[1..], sep);
      var rest := Split(s[1..], sep);
      if s[0] != sep {
        assert forall c :: c in [s[0]] + rest[0] ==> c == s[0] || c in rest[0];
      }
    }
  }

  /** `parts.join(sep)` */
  function Join(parts: seq<string>, sep: char): string
  {
    if parts == [] then []
    else if |parts| == 1 then parts[0]
    else parts[0] + [sep] + Join(parts[1..], sep)
  }

  /** Splitting loses nothing: joining the pieces with the separator gives the input back. */
  lemma {:induction false} JoinSplit(s: string, sep: char)
    ensures Join(Split(s, sep), sep) == s
  {
    if s != [] {
      var rest := Split(s[1..], sep);
      JoinSplit(s[1..], sep);
      if s[0] == sep {
        assert Split(s, sep) == [[]] + rest;
        assert ([[]] + rest)[1..] == rest;
      } else {
        var parts := Split(s, sep);
        assert parts == [[s[0]] + rest[0]] + rest[1..];
        if |rest| == 1 {
          assert parts[0] == [s[0]] + s[1..];
        } else {
          assert parts[1..] == rest[1..];
          assert Join(rest, sep) == rest[0] + [sep] + Join(rest[1..], sep);
          assert [s[0]] + s[1..] == s;
        }
      }
    }
  }

  /** A string that does not contain the separator splits into itself alone. */
  lemma {:induction false} SplitWithoutSeparator(s: string, sep: char)
    requires sep !in s
    ensures Split(s, sep) == [s]
  {
    if s != [] {
      SplitWithoutSeparator(s[1..], sep);
      assert [s[0]] + s[1..] == s;
    }
  }

  /** The pieces of `a + b` when `a` splits into `pa` and `b` into `pb`: the last piece
      of `a` and the first piece of `b` fuse into one. */
  function Fuse(pa: seq<string>, pb: seq<string>): (r: seq<string>)
    requires |pa| >= 1 && |pb| >= 1
    ensures |r| == |pa| + |pb| - 1
  {
    pa[..|pa| - 1] + [pa[|pa| - 1] + pb[0]] + pb[1..]
  }

  lemma FuseCons(x: string, pa: seq<string>, pb: seq<string>)
    requires |pa| >= 1 && |pb| >= 1
    ensures Fuse([x] + pa, pb) == [x] + Fuse(pa, pb)
  {
    assert ([x] + pa)[..|pa|] == [x] + pa[..|pa| - 1];
  }

  lemma FuseExtendFirst(c: char, pa: seq<string>, pb: seq<string>)
    requires |pa| >= 1 && |pb| >= 1
    ensures var f := Fuse(pa, pb);
            Fuse([[c] + pa[0]] + pa[1..], pb) == [[c] + f[0]] + f[1..]
  {
    var f := Fuse(pa, pb);
    if |pa| == 1 {
      assert [[c] + pa[0]] + pa[1..] == [[c] + pa[0]];
      assert f == [pa[0] + pb[0]] + pb[1..];
      assert [c] + pa[0] + pb[0] == [c] + (pa[0] + pb[0]);
    } else {
      FuseCons([c] + pa[0], pa[1..], pb);
      FuseCons(pa[0], pa[1..], pb);
      assert [pa[0]] + pa[1..] == pa;
      assert f == [pa[0]] + Fuse(pa[1..], pb);
    }
  }

  lemma FuseAfter(complete: seq<string>, last: string, pb: seq<string>)
    requires |pb| >= 1
    ensures Fuse(complete + [last], pb) == complete + Fuse([last], pb)
  {
    var pa := complete + [last];
    assert pa[..|pa| - 1] == complete;
  }

  /** Splitting a concatenation: the last piece of `a` and the first piece of `b`
      fuse into one piece, all other pieces are those of `a` and of `b`. */
  lemma {:induction false} SplitAppend(a: string, b: string, sep: char)
    ensures Split(a + b, sep) == Fuse(Split(a, sep), Split(b, sep))
  {
    var pb := Split(b, sep);
    if a == [] {
      assert a + b == b;
      assert Split(a, sep) == [[]];
      assert Fuse([[]], pb) == [[] + pb[0]] + pb[1..];
      assert [] + pb[0] == pb[0];
      assert [pb[0]] + pb[1..] == pb;
    } else {
      assert (a + b)[1..] == a[1..] + b;
      SplitAppend(a[1..], b, sep);
      var pr := Split(a[1..], sep);
      if a[0] == sep {
        FuseCons([], pr, pb);
      } else {
        FuseExtendFirst(a[0], pr, pb);
      }
    }
  }

  /** Taking one more element of a sequence. */
  lemma TakeOneMore<T>(s: seq<T>, j: nat)
    requires j < |s|
    ensures s[..j + 1] == s[..j] + [s[j]]
  {
  }

  /** Appending one element leaves the earlier ones where they were. */
  lemma DropLast<T>(s: seq<T>, x: T)
    ensures (s + [x])[..|s|] == s
    ensures forall i :: 0 <= i < |s| ==> (s + [x])[i] == s[i]
  {
  }

  /** A sequence is its prefix followed by the rest. */
  lemma TakeDrop<T>(s: seq<T>, j: nat)
    requires j <= |s|
    ensures s[..j] + s[j..] == s
  {
  }

  /** The concatenation of a list of lists. */
  function Concat<T>(ss: seq<seq<T>>): (r: seq<T>)
    ensures |r| == 0 ==> forall i :: 0 <= i < |ss| ==> ss[i] == []
  {
    if ss == [] then [] else ss[0] + Concat(ss[1..])
  }

  /** Appending one more list to the concatenation. */
  lemma ConcatSnoc<T>(ss: seq<seq<T>>, i: nat)
    requires i < |ss|
    ensures Concat(ss[..i + 1]) == Concat(ss[..i]) + ss[i]
  {
    TakeOneMore(ss, i);
    ConcatAppend(ss[..i], [ss[i]]);
    assert [ss[i]][1..] == [];
  }

  /** Concatenation distributes over appending lists. */
  lemma {:induction false} ConcatAppend<T>(a: seq<seq<T>>, b: seq<seq<T>>)
    ensures Concat(a + b) == Concat(a) + Concat(b)
  {
    if a == [] {
      assert a + b == b;
    } else {
      assert (a + b)[1..] == a[1..] + b;
      ConcatAppend(a[1..], b);
    }
  }
}

=== FILE: Stream.dfy ===
/** The streaming relay of api/ask.js: the loop that reads the upstream response body,
    splits each read into lines and forwards the delta content of every `data: ` frame
    until the `[DONE]` marker. Reads are given as already-decoded strings and `JSON.parse`
    as a function from text to its parse outcome. */
module Stream {
  import opened Js
  import opened Seqs

  const DATA_PREFIX: string := "data: "
  const DONE_MARKER: string := "[DONE]"

  /** `line.startsWith("data: ")` */
  predicate IsDataLine(line: string)
    ensures IsDataLine(line) <==> DATA_PREFIX <= line
  {
    |line| >= |DATA_PREFIX| && line[..|DATA_PREFIX|] == DATA_PREFIX
  }

  /** `line.replace("data: ", "")` on a data line: the first occurrence replaced is the prefix. */
  function Payload(line: string): (data: string)
    requires IsDataLine(line)
    ensures DATA_PREFIX + data == line
  {
    line[|DATA_PREFIX|..]
  }

  /** A line is a data line exactly when it is the prefix followed by some text, and that
      text is then its payload. */
  lemma PrefixedLine(line: string, rest: string)
    ensures IsDataLine(DATA_PREFIX + rest) && Payload(DATA_PREFIX + rest) == rest
    ensures IsDataLine(line) <==> |line| >= |DATA_PREFIX| && DATA_PREFIX + line[|DATA_PREFIX|..] == line
  {
    assert (DATA_PREFIX + rest)[..|DATA_PREFIX|] == DATA_PREFIX;
    if |line| >= |DATA_PREFIX| && DATA_PREFIX + line[|DATA_PREFIX|..] == line {
      assert line[..|DATA_PREFIX|] == (DATA_PREFIX + line[|DATA_PREFIX|..])[..|DATA_PREFIX|];
    }
  }

  /** `json.choices?.[0]?.delta?.content`, or None when `json.choices` throws because
      `json` is null. */
  function DeltaOf(json: Value): (r: Option<Value>)
    ensures r.None? <==> Nullish(json)
    ensures r.Some? && !r.value.Undefined? ==> json.Object? && "choices" in json.props
  {
    if Nullish(json) then None
    else Some(OptProp(OptProp(OptFirst(Prop(json, "choices")), "delta"), "content"))
  }

  /** What one line means to the relay. */
  datatype Frame = NotData | Done | Token(token: Value) | Skipped

  /** A line without the prefix is ignored; `data: [DONE]` ends the stream; any other data
      line forwards its delta content when that parses and is truthy, and is skipped otherwise. */
  function Classify(line: string, parse: string -> Parsed): (f: Frame)
    ensures f == NotData <==> !IsDataLine(line)
    ensures f == Done <==> IsDataLine(line) && Payload(line) == DONE_MARKER
    ensures f.Token? <==> IsDataLine(line) && Payload(line) != DONE_MARKER
                          && parse(Payload(line)).Json? && DeltaOf(parse(Payload(line)).value).Some?
                          && Truthy(DeltaOf(parse(Payload(line)).value).value)
    ensures f.Token? ==> && IsDataLine(line) && parse(Payload(line)).Json?
                         && DeltaOf(parse(Payload(line)).value) == Some(f.token)
                         && Truthy(f.token)
  {
    if !IsDataLine(line) then NotData
    else if Payload(line) == DONE_MARKER then Done
    else match parse(Payload(line))
      case Malformed => Skipped
      case Json(json) =>
        match DeltaOf(json)
        case None => Skipped
        case Some(token) => if Truthy(token) then Token(token) else Skipped
  }

  /** The tokens forwarded to the caller, and whether the stream was closed by `[DONE]`. */
  datatype Relay = Relay(tokens: seq<Value>, done: bool)

  /** The relay of a sequence of lines: the tokens of the frames before the first `[DONE]`,
      in order. */
  function Decode(lines: seq<string>, parse: string -> Parsed): (r: Relay)
    ensures forall i :: 0 <= i < |r.tokens| ==> Truthy(r.tokens[i])
    ensures |r.tokens| <= |lines|
  {
    if lines == [] then Relay([], false)
    else
      var rest := Decode(lines[1..], parse);
      match Classify(lines[0], parse)
      case Done => Relay([], true)
      case Token(t) => Relay([t] + rest.tokens, rest.done)
      case _ => rest
  }

  /** `Boolean(line)` */
  predicate NonEmpty(line: string)
    ensures NonEmpty(line) <==> Truthy(Str(line))
  {
    line != ""
  }

  /** `chunk.split("\n").filter(Boolean)`: the non-empty lines of one read. */
  function ChunkLines(chunk: string): (lines: seq<string>)
    ensures forall i :: 0 <= i < |lines| ==> lines[i] != "" && '\n' !in lines[i]
  {
    SplitPiecesAreSeparatorFree(chunk, '\n');
    Filter(NonEmpty, Split(chunk, '\n'))
  }

  /** The lines the relay sees: each read is split on its own. */
  function Lines(chunks: seq<string>): (lines: seq<string>)
    ensures forall i :: 0 <= i < |lines| ==> lines[i] != "" && '\n' !in lines[i]
  {
    if chunks == [] then [] else ChunkLines(chunks[0]) + Lines(chunks[1..])
  }

  lemma {:induction false} LinesAppend(a: seq<string>, b: seq<string>)
    ensures Lines(a + b) == Lines(a) + Lines(b)
  {
    if a == [] {
      assert a + b == b;
    } else {
      assert (a + b)[1..] == a[1..] + b;
      LinesAppend(a[1..], b);
    }
  }

  /** Decoding two runs of lines one after the other: the second contributes only when the
      first did not end the stream. */
  lemma {:induction false} DecodeAppend(a: seq<string>, b: seq<string>, parse: string -> Parsed)
    ensures var da := Decode(a, parse);
            Decode(a + b, parse) == if da.done then da else Relay(da.tokens + Decode(b, parse).tokens, Decode(b, parse).done)
  {
    if a == [] {
      assert a + b == b;
    } else {
      assert (a + b)[1..] == a[1..] + b;
      DecodeAppend(a[1..], b, parse);
      match Classify(a[0], parse)
      case Done =>
      case Token(t) =>
        var db := Decode(b, parse);
        var dr := Decode(a[1..], parse);
        assert [t] + (dr.tokens + db.tokens) == ([t] + dr.tokens) + db.tokens;
      case NotData =>
      case Skipped =>
    }
  }

  /** The stream ends at the first `[DONE]`: nothing after it is forwarded. */
  lemma NothingAfterDone(before: seq<string>, line: string, after: seq<string>, parse: string -> Parsed)
    requires Classify(line, parse) == Done
    ensures Decode(before + [line] + after, parse) == Decode(before + [line], parse)
    ensures Decode(before + [line], parse).done
  {
    assert Decode([line], parse) == Relay([], true);
    DecodeAppend(before, [line], parse);
    DecodeAppend(before + [line], after, parse);
  }

  /** Lines without the `data: ` prefix make no difference. */
  lemma {:induction false} NonDataLinesIgnored(lines: seq<string>, parse: string -> Parsed)
    ensures Decode(lines, parse) == Decode(Filter(IsDataLine, lines), parse)
  {
    if lines != [] {
      NonDataLinesIgnored(lines[1..], parse);
      var rest := Filter(IsDataLine, lines[1..]);
      if IsDataLine(lines[0]) {
        assert Filter(IsDataLine, lines) == [lines[0]] + rest;
        assert ([lines[0]] + rest)[1..] == rest;
      } else {
        assert Filter(IsDataLine, lines) == rest;
      }
    }
  }

  /** A frame that does not parse, or parses without a truthy delta content, is skipped
      without stopping the stream. */
  lemma SkippedFrameTransparent(before: seq<string>, line: string, after: seq<string>, parse: string -> Parsed)
    requires IsDataLine(line) && Payload(line) != DONE_MARKER
    requires parse(Payload(line)).Malformed? || DeltaOf(parse(Payload(line)).value).None?
             || !Truthy(DeltaOf(parse(Payload(line)).value).value)
    ensures Decode(before + [line] + after, parse) == Decode(before + after, parse)
  {
    DecodeAppend(before, [line] + after, parse);
    DecodeAppend(before, after, parse);
    assert before + [line] + after == before + ([line] + after);
    assert ([line] + after)[1..] == after;
  }

  /** `{"choices":[{"delta":{"content": token}}]}` as a value. */
  function DeltaFrame(token: Value): Value
  {
    Object(map["choices" := Array([Object(map["delta" := Object(map["content" := token])])])])
  }

  /** `json.choices?.[0]?.delta?.content` of a frame whose first choice carries a delta
      content is that content, whatever other keys the frame has. */
  lemma DeltaOfFirstChoice(json: Value, t: Value)
    requires ChoiceContent(json, "delta", t)
    ensures DeltaOf(json) == Some(t)
  {
    var choices := json.props["choices"];
    assert OptFirst(choices) == choices.elems[0];
  }

  /** A data line whose payload parses to a frame whose first choice carries a truthy delta
      content forwards exactly that content. */
  lemma DeltaFrameRelayed(text: string, json: Value, token: Value, parse: string -> Parsed)
    requires text != DONE_MARKER && Truthy(token)
    requires parse(text) == Json(json) && ChoiceContent(json, "delta", token)
    ensures Classify(DATA_PREFIX + text, parse) == Token(token)
  {
    var line := DATA_PREFIX + text;
    assert line[..|DATA_PREFIX|] == DATA_PREFIX;
    assert Payload(line) == text;
    DeltaOfFirstChoice(json, token);
  }

  /** The frames `A`, `B`, `[DONE]` relay exactly "A" then "B" and close the stream. */
  lemma TwoTokensThenDone(textA: string, textB: string, parse: string -> Parsed)
    requires parse(textA) == Json(DeltaFrame(Str("A")))
    requires parse(textB) == Json(DeltaFrame(Str("B")))
    requires textA != DONE_MARKER && textB != DONE_MARKER
    ensures Decode([DATA_PREFIX + textA, DATA_PREFIX + textB, DATA_PREFIX + DONE_MARKER], parse)
            == Relay([Str("A"), Str("B")], true)
  {
    var lines := [DATA_PREFIX + textA, DATA_PREFIX + textB, DATA_PREFIX + DONE_MARKER];
    DeltaFrameRelayed(textA, DeltaFrame(Str("A")), Str("A"), parse);
    DeltaFrameRelayed(textB, DeltaFrame(Str("B")), Str("B"), parse);
    assert Payload(lines[2]) == DONE_MARKER;
    assert Decode(lines[2..], parse) == Relay([], true);
    assert lines[1..][1..] == lines[2..];
    assert Decode(lines[1..], parse) == Relay([Str("B")], true);
  }

  /** A relay after one more frame: a closed relay stays as it is, `[DONE]` closes an open
      one, and a token is appended to it. */
  function Extend(d: Relay, f: Frame): Relay
  {
    if d.done then d
    else match f
      case Done => Relay(d.tokens, true)
      case Token(t) => Relay(d.tokens + [t], false)
      case _ => d
  }

  /** Decoding one more line extends the relay by that line's frame. */
  lemma DecodeSnoc(prefix: seq<string>, line: string, parse: string -> Parsed)
    ensures Decode(prefix + [line], parse) == Extend(Decode(prefix, parse), Classify(line, parse))
  {
    assert [line][1..] == [];
    DecodeAppend(prefix, [line], parse);
  }

  /** Relaying line `j` of an open relay; at `[DONE]` that is the relay of all the lines,
      whatever follows. */
  lemma RelayLineStep(lines: seq<string>, j: nat, parse: string -> Parsed, tokens: seq<Value>)
    requires j < |lines|
    requires Decode(lines[..j], parse) == Relay(tokens, false)
    ensures Decode(lines[..j + 1], parse) == Extend(Relay(tokens, false), Classify(lines[j], parse))
    ensures Classify(lines[j], parse) == Done ==> Decode(lines, parse) == Relay(tokens, true)
  {
    TakeOneMore(lines, j);
    DecodeSnoc(lines[..j], lines[j], parse);
    if Classify(lines[j], parse) == Done {
      TakeDrop(lines, j + 1);
      DoneAbsorbs(lines[..j + 1], lines[j + 1..], parse);
    }
  }

  /** The inner `for` over the lines of one read: forward each token, and stop with
      `done` at `[DONE]` (where the source closes the stream and returns). */
  method RelayLines(lines: seq<string>, parse: string -> Parsed) returns (tokens: seq<Value>, done: bool)
    ensures Relay(tokens, done) == Decode(lines, parse)
  {
    tokens := [];
    for j := 0 to |lines|
      invariant Decode(lines[..j], parse) == Relay(tokens, false)
    {
      var line := lines[j];
      RelayLineStep(lines, j, parse, tokens);
      if IsDataLine(line) {
        var data := line[|DATA_PREFIX|..];
        if data == DONE_MARKER {
          return tokens, true;
        }
        match parse(data) {
          case Malformed =>
          case Json(json) =>
            if !Nullish(json) {
              var token := OptProp(OptProp(OptFirst(Prop(json, "choices")), "delta"), "content");
              if Truthy(token) {
                tokens := tokens + [token];
              }
            }
        }
      }
    }
    assert lines[..|lines|] == lines;
    done := false;
  }

  /** The lines of one more read follow those of the earlier reads. */
  lemma LinesSnoc(chunks: seq<string>, i: nat)
    requires i < |chunks|
    ensures Lines(chunks[..i + 1]) == Lines(chunks[..i]) + ChunkLines(chunks[i])
  {
    TakeOneMore(chunks, i);
    LinesAppend(chunks[..i], [chunks[i]]);
    assert [chunks[i]][1..] == [];
  }

  /** Relaying one run of lines after another that did not end the stream. */
  lemma RelayThen(a: seq<string>, b: seq<string>, parse: string -> Parsed, tokens: seq<Value>, emitted: seq<Value>, stop: bool)
    requires Decode(a, parse) == Relay(tokens, false)
    requires Decode(b, parse) == Relay(emitted, stop)
    ensures Decode(a + b, parse) == Relay(tokens + emitted, stop)
  {
    DecodeAppend(a, b, parse);
  }

  /** Once a run of lines has ended the stream, the lines after it change nothing. */
  lemma DoneAbsorbs(a: seq<string>, b: seq<string>, parse: string -> Parsed)
    requires Decode(a, parse).done
    ensures Decode(a + b, parse) == Decode(a, parse)
  {
    DecodeAppend(a, b, parse);
  }

  /** One iteration of the read loop: relaying the lines of read `i` after those of the
      earlier reads either continues the relay or, at `[DONE]`, is the relay of the whole body. */
  lemma {:induction false} ReadStep(chunks: seq<string>, i: nat, parse: string -> Parsed, tokens: seq<Value>, emitted: seq<Value>, stop: bool)
    requires i < |chunks|
    requires Decode(Lines(chunks[..i]), parse) == Relay(tokens, false)
    requires Decode(ChunkLines(chunks[i]), parse) == Relay(emitted, stop)
    ensures !stop ==> Decode(Lines(chunks[..i + 1]), parse) == Relay(tokens + emitted, false)
    ensures stop ==> Decode(Lines(chunks), parse) == Relay(tokens + emitted, true)
  {
    LinesSnoc(chunks, i);
    RelayThen(Lines(chunks[..i]), ChunkLines(chunks[i]), parse, tokens, emitted, stop);
    if stop {
      TakeDrop(chunks, i + 1);
      LinesAppend(chunks[..i + 1], chunks[i + 1..]);
      DoneAbsorbs(Lines(chunks[..i + 1]), Lines(chunks[i + 1..]), parse);
    }
  }

  /** The read loop as written: every read is split into lines on its own, the lines are
      relayed, and the first `[DONE]` ends the stream without reading further. */
  method RelayStream(chunks: seq<string>, parse: string -> Parsed) returns (tokens: seq<Value>, done: bool)
    ensures Relay(tokens, done) == Decode(Lines(chunks), parse)
  {
    tokens := [];
    var i := 0;
    while i < |chunks|
      invariant 0 <= i <= |chunks|
      invariant Decode(Lines(chunks[..i]), parse) == Relay(tokens, false)
    {
      var emitted, stop := RelayLines(ChunkLines(chunks[i]), parse);
      ReadStep(chunks, i, parse, tokens, emitted, stop);
      if stop {
        return tokens + emitted, true;
      }
      tokens := tokens + emitted;
      i := i + 1;
    }
    assert chunks[..i] == chunks;
    done := false;
  }

  /** A non-empty read without a newline is one line. */
  lemma OneLineRead(chunk: string)
    requires chunk != "" && '\n' !in chunk
    ensures Lines([chunk]) == [chunk]
  {
    SplitWithoutSeparator(chunk, '\n');
    assert [chunk][1..] == [];
  }

  /** A frame whose bytes arrive in two reads is lost: the prefix comes alone in the first
      read and the JSON text alone in the second, and neither line carries a token, although
      the same bytes in one read are relayed. */
  lemma FrameSplitAcrossReadsIsLost(text: string, parse: string -> Parsed)
    requires text != "" && '\n' !in text && !IsDataLine(text) && text != DONE_MARKER
    requires parse("") == Malformed
    requires parse(text) == Json(DeltaFrame(Str("A")))
    ensures Decode(Lines([DATA_PREFIX, text]), parse) == Relay([], false)
    ensures Decode(Lines([DATA_PREFIX + text]), parse) == Relay([Str("A")], false)
  {
    SplitReadsRelayNothing(text, parse);
    OneReadRelaysToken(text, parse);
  }

  lemma SplitReadsRelayNothing(text: string, parse: string -> Parsed)
    requires text != "" && '\n' !in text && !IsDataLine(text)
    requires parse("") == Malformed
    ensures Decode(Lines([DATA_PREFIX, text]), parse) == Relay([], false)
  {
    OneLineRead(DATA_PREFIX);
    OneLineRead(text);
    LinesAppend([DATA_PREFIX], [text]);
    assert [DATA_PREFIX] + [text] == [DATA_PREFIX, text];
    assert Payload(DATA_PREFIX) == "";
    assert Classify(DATA_PREFIX, parse) == Skipped;
    assert Classify(text, parse) == NotData;
    assert Decode([text], parse) == Relay([], false);
    DecodeAppend([DATA_PREFIX], [text], parse);
  }

  lemma OneReadRelaysToken(text: string, parse: string -> Parsed)
    requires text != "" && '\n' !in text && text != DONE_MARKER
    requires parse(text) == Json(DeltaFrame(Str("A")))
    ensures Decode(Lines([DATA_PREFIX + text]), parse) == Relay([Str("A")], false)
  {
    var line := DATA_PREFIX + text;
    OneLineRead(line);
    DeltaFrameRelayed(text, DeltaFrame(Str("A")), Str("A"), parse);
  }

  /** Empty lines make no difference either: they are not data lines. */
  lemma {:induction false} EmptyLinesIgnored(lines: seq<string>, parse: string -> Parsed)
    ensures Decode(Filter(NonEmpty, lines), parse) == Decode(lines, parse)
  {
    if lines != [] {
      EmptyLinesIgnored(lines[1..], parse);
      var rest := Filter(NonEmpty, lines[1..]);
      if NonEmpty(lines[0]) {
        assert Filter(NonEmpty, lines) == [lines[0]] + rest;
        assert ([lines[0]] + rest)[1..] == rest;
      } else {
        assert Filter(NonEmpty, lines) == rest;
        assert Classify(lines[0], parse) == NotData;
      }
    }
  }

  /** With a partial line `pending` left over from the text read so far, the lines of the
      text extended by `chunk` are the complete lines so far followed by those of `pending + chunk`. */
  lemma CarryOver(text: string, complete: seq<string>, pending: string, chunk: string)
    requires '\n' !in pending
    requires Split(text, '\n') == complete + [pending]
    ensures Split(text + chunk, '\n') == complete + Split(pending + chunk, '\n')
  {
    var sc := Split(chunk, '\n');
    assert Split(pending + chunk, '\n') == Fuse([pending], sc) by {
      SplitWithoutSeparator(pending, '\n');
      SplitAppend(pending, chunk, '\n');
    }
    assert Split(text + chunk, '\n') == Fuse(complete + [pending], sc) by {
      SplitAppend(text, chunk, '\n');
    }
    FuseAfter(complete, pending, sc);
  }

  /** The partial line carried over never holds a newline. */
  lemma LastPieceIsPartial(text: string)
    ensures '\n' !in Split(text, '\n')[|Split(text, '\n')| - 1]
  {
    SplitPiecesAreSeparatorFree(text, '\n');
  }

  /** One read of the buffered loop: the complete lines grow by all pieces of
      `pending + chunk` but the last, which becomes the new partial line. */
  lemma BufferedSplitStep(chunks: seq<string>, i: nat, complete: seq<string>, pending: string)
    requires i < |chunks| && '\n' !in pending
    requires Split(Concat(chunks[..i]), '\n') == complete + [pending]
    ensures var parts := Split(pending + chunks[i], '\n');
            && Split(Concat(chunks[..i + 1]), '\n') == (complete + parts[..|parts| - 1]) + [parts[|parts| - 1]]
            && '\n' !in parts[|parts| - 1]
  {
    var parts := Split(pending + chunks[i], '\n');
    ConcatSnoc(chunks, i);
    CarryOver(Concat(chunks[..i]), complete, pending, chunks[i]);
    assert complete + parts == (complete + parts[..|parts| - 1]) + [parts[|parts| - 1]];
    LastPieceIsPartial(pending + chunks[i]);
  }

  /** When the complete lines read so far end the stream, the rest of the body does not matter. */
  lemma DoneBeforeRest(chunks: seq<string>, i: nat, complete: seq<string>, pending: string, parse: string -> Parsed)
    requires i <= |chunks| && '\n' !in pending
    requires Split(Concat(chunks[..i]), '\n') == complete + [pending]
    requires Decode(complete, parse).done
    ensures Decode(Split(Concat(chunks), '\n'), parse) == Decode(complete, parse)
  {
    var rest := Concat(chunks[i..]);
    assert Concat(chunks) == Concat(chunks[..i]) + rest by {
      TakeDrop(chunks, i);
      ConcatAppend(chunks[..i], chunks[i..]);
    }
    CarryOver(Concat(chunks[..i]), complete, pending, rest);
    DecodeAppend(complete, Split(pending + rest, '\n'), parse);
  }

  /** One read of the buffered loop, with the relay of its complete lines: at `[DONE]` the
      relay so far is that of the whole body, otherwise the loop's invariant holds again. */
  lemma BufferedStep(chunks: seq<string>, i: nat, complete: seq<string>, pending: string,
                     parse: string -> Parsed, tokens: seq<Value>, emitted: seq<Value>, stop: bool)
    requires i < |chunks| && '\n' !in pending
    requires Split(Concat(chunks[..i]), '\n') == complete + [pending]
    requires Decode(complete, parse) == Relay(tokens, false)
    requires var parts := Split(pending + chunks[i], '\n');
             Decode(parts[..|parts| - 1], parse) == Relay(emitted, stop)
    ensures var parts := Split(pending + chunks[i], '\n');
            var complete' := complete + parts[..|parts| - 1];
            && (stop ==> Decode(ChunkLines(Concat(chunks)), parse) == Relay(tokens + emitted, true))
            && (!stop ==> && Split(Concat(chunks[..i + 1]), '\n') == complete' + [parts[|parts| - 1]]
                          && '\n' !in parts[|parts| - 1]
                          && Decode(complete', parse) == Relay(tokens + emitted, false))
  {
    var parts := Split(pending + chunks[i], '\n');
    var complete' := complete + parts[..|parts| - 1];
    BufferedSplitStep(chunks, i, complete, pending);
    DecodeAppend(complete, parts[..|parts| - 1], parse);
    if stop {
      DoneBeforeRest(chunks, i + 1, complete', parts[|parts| - 1], parse);
      EmptyLinesIgnored(Split(Concat(chunks), '\n'), parse);
    }
  }

  /** After the last read, the partial line left over is relayed as the final line. */
  lemma BufferedFinish(chunks: seq<string>, complete: seq<string>, pending: string,
                       parse: string -> Parsed, tokens: seq<Value>, emitted: seq<Value>, stop: bool)
    requires Split(Concat(chunks), '\n') == complete + [pending]
    requires Decode(complete, parse) == Relay(tokens, false)
    requires Decode([pending], parse) == Relay(emitted, stop)
    ensures Decode(ChunkLines(Concat(chunks)), parse) == Relay(tokens + emitted, stop)
  {
    DecodeAppend(complete, [pending], parse);
    EmptyLinesIgnored(Split(Concat(chunks), '\n'), parse);
  }

  /** The relay with the partial last line of each read carried over to the next read,
      and the remainder relayed as a last line when the body ends (empty lines need no
      filtering, since they are not data lines). What it relays depends only on the whole
      text of the body, however that text was cut into reads. */
  method BufferedRelayStream(chunks: seq<string>, parse: string -> Parsed) returns (tokens: seq<Value>, done: bool)
    ensures Relay(tokens, done) == Decode(ChunkLines(Concat(chunks)), parse)
  {
    tokens := [];
    var pending: string := [];
    ghost var complete: seq<string> := [];
    var i := 0;
    while i < |chunks|
      invariant 0 <= i <= |chunks|
      invariant '\n' !in pending
      invariant Split(Concat(chunks[..i]), '\n') == complete + [pending]
      invariant Decode(complete, parse) == Relay(tokens, false)
    {
      var parts := Split(pending + chunks[i], '\n');
      var emitted, stop := RelayLines(parts[..|parts| - 1], parse);
      BufferedStep(chunks, i, complete, pending, parse, tokens, emitted, stop);
      if stop {
        return tokens + emitted, true;
      }
      tokens := tokens + emitted;
      complete := complete + parts[..|parts| - 1];
      pending := parts[|parts| - 1];
      i := i + 1;
    }
    assert chunks[..i] == chunks;
    var emitted, stop := RelayLines([pending], parse);
    BufferedFinish(chunks, complete, pending, parse, tokens, emitted, stop);
    tokens, done := tokens + emitted, stop;
  }
}
